=== FILE: README.md ===
# bmp-xor, modelled in Dafny

`bmp-xor` encrypts a one-bit-per-pixel Windows bitmap with a one-time pad.
It is run as `xor <input bitmap> <key> <output bitmap>`. It does the
following, in order:

1. It checks that the information header is the 40-byte ("version 3")
   variant.
2. It reads the 14-byte file header and the information header, and checks
   that the bit depth is 1.
3. It reads the `colors_used` colour-table entries.
4. It computes the bytes of pixels per row, ceil(width / 8). It also
   computes the stored row width, which is that count padded to a multiple
   of 4.
5. It demands a key of exactly one byte per unpadded pixel byte.
6. It writes the headers and the colour table back unchanged.
7. For every stored row, it XORs the row's pixel bytes with the next key
   bytes. The padding bytes stay as they are.

Running it again with the same key restores the input up to the end of
its pixel rows; input bytes after the last row are not written.

The model has five modules:

- `LittleEndian` (`bytes.dfy`): reads and writes the little-endian 16- and
  32-bit fields. It also gives the `int32_t` view of a 32-bit field.
- `BitmapFormat` (`bitmap_format.dfy`): the file header, the 40-byte
  information header with its field views, and the colour table. The file
  header and the colour table come with decoding, encoding and both round
  trips. The information header is read and written as its 40 raw bytes,
  so it needs neither; only its field views decode it.
- `Geometry` (`geometry.dfy`): `GET_PADDING` and the row width. It also
  models two expressions in 32-bit arithmetic, as a two's-complement
  machine whose signed addition wraps evaluates them (C leaves the signed
  overflow at line 103 undefined); see Findings.
- `RowTransform` (`rows.dfy`): the XOR of one row, specified as a function.
  The program's in-place loop over the row buffer and its row loop over
  the two streams are methods, proved against that function.
- `BmpXor` (`bmp_xor.dfy`): `main` as the function `Run`, whose result is
  either the output file's bytes or the error that stopped the run. The
  method `Execute` follows the same control flow. The lemmas state what
  the program promises.

File access is modelled by parameters:

- The input and key files are given by their contents, or `None` when
  opening fails.
- Whether the output file can be created is a flag.
- `argv` is reduced to `argc`.

Exit statuses 1–7 follow the program's `return` statements. Statuses 8 and
9 are used by the model for two cases the program does not check; see
Left out.

## Model

| member | source | states |
|---|---|---|
| LittleEndian.U16 | bmp-xor.c:75 | a 16-bit field is read from two bytes, low byte first (bit-vector reading) |
| LittleEndian.U32 | bmp-xor.c:55 | a 32-bit field is read from four bytes, low byte first (bit-vector reading) |
| LittleEndian.U16IsUnsigned | bmp-xor.c:23-24 | the bit-vector and the numeric reading of a 16-bit field give the same value |
| LittleEndian.U32IsUnsigned32 | bmp-xor.c:20 | the bit-vector and the numeric reading of a 32-bit field give the same value |
| LittleEndian.EncodeU16 | bmp-xor.c:148 | the two bytes written for a 16-bit field read back as the same value |
| LittleEndian.EncodeU32 | bmp-xor.c:149-151 | the four bytes written for a 32-bit field read back as the same value |
| LittleEndian.EncodeU16OfU16 | bmp-xor.c:75 | reading a 16-bit field and writing it back reproduces its two bytes |
| LittleEndian.EncodeU32OfU32 | bmp-xor.c:76-78 | reading a 32-bit field and writing it back reproduces its four bytes |
| LittleEndian.Unsigned | bmp-xor.c:29 | the number stored by n little-endian bytes is below 256^n |
| LittleEndian.Unsigned32 | bmp-xor.c:29 | a `uint32_t` field such as `colors_used` is below 2^32 |
| LittleEndian.Signed32 | bmp-xor.c:21-22 | an `int32_t` field such as `px_width` lies in [-2^31, 2^31) and is congruent to the field's unsigned value modulo 2^32 |
| BitmapFormat.EncodeFileHeader | bmp-xor.c:148-151 | the file header is written as 14 bytes |
| BitmapFormat.DecodeEncodeFileHeader | bmp-xor.c:148-151 | writing the file header's four fields and reading them back gives the same fields |
| BitmapFormat.DecodeFileHeader | bmp-xor.c:74-78 | the four fields read one after the other from offset 0; writing them back reproduces the header's 14 bytes |
| BitmapFormat.HeaderSize | bmp-xor.c:20 | the information header's `size` field, at offset 0 of the block |
| BitmapFormat.PxWidth | bmp-xor.c:21 | `px_width`, the `int32_t` at offset 4 of the block |
| BitmapFormat.PxHeight | bmp-xor.c:22 | `px_height`, the `int32_t` at offset 8 of the block |
| BitmapFormat.BitCount | bmp-xor.c:24 | `bit_count`, the `uint16_t` at offset 14 of the block |
| BitmapFormat.ColorsUsed | bmp-xor.c:29 | `colors_used`, the `uint32_t` at offset 32 of the block |
| BitmapFormat.DecodeColorTable | bmp-xor.c:97-99 | `colors_used` entries are read; entry i is made of the 4 bytes at 4i |
| BitmapFormat.EncodeColorTable | bmp-xor.c:157 | the entries are written as 4 bytes each, in order; entry i decodes back from offset 4i |
| BitmapFormat.DecodeEncodeColorTable | bmp-xor.c:157 | writing the colour table and reading it back gives the same entries |
| BitmapFormat.EncodeDecodeColorTable | bmp-xor.c:97-99 | reading n entries and writing them back reproduces their 4n bytes |
| BitmapFormat.EncodeDecodeHeaders | bmp-xor.c:147-157 | both headers and the colour table, read and written back in order, reproduce the first 54 + 4n bytes |
| BitmapFormat.DecodeHeadersLocal | bmp-xor.c:74-99 | both headers and the colour table are decided by the first 54 + 4n bytes alone |
| Geometry.Padded | bmp-xor.c:9 | `GET_PADDING` rounds up to a multiple of 4, adds fewer than 4 bytes, and leaves multiples of 4 unchanged (both directions) |
| Geometry.RawWidth | bmp-xor.c:103 | the row's pixel bytes are the least count that holds the width's bits: 8r >= width > 8(r - 1) |
| Geometry.PaddedCoversRaw | bmp-xor.c:103-104 | the stored row holds every pixel byte plus fewer than 4 padding bytes, and no padding when the width is a multiple of 32 |
| Geometry.WrapInt32 | bmp-xor.c:103 | an overflowing `int` addition yields the `int32_t` congruent to the exact sum modulo 2^32 |
| Geometry.CDiv | bmp-xor.c:103 | C division truncates toward zero: the remainder has the dividend's sign and is smaller than the divisor |
| Geometry.RawWidthAsWritten | bmp-xor.c:103 | the expression, evaluated with a wrapping `int` addition, truncating division and conversion modulo 2^32, yields a `uint32_t` |
| Geometry.RawWidthAsWrittenAgrees | bmp-xor.c:103 | below 2^31 - 8 pixels the C expression equals the ceiling division |
| Geometry.RawWidthAsWrittenOverflows | bmp-xor.c:103 | a width of 2^31 - 1 pixels yields 0xF000_0001 bytes per row instead of 2^28 if the `int` addition wraps |
| Geometry.RawWidthAsWrittenNegative | bmp-xor.c:103 | a width of -1 or -14 pixels gives 0 bytes per row; -15 gives 0xFFFF_FFFF |
| Geometry.ImageDataSizeAsWritten | bmp-xor.c:117 | the 32-bit unsigned product is below 2^32 and congruent to the exact product modulo 2^32 |
| Geometry.ImageDataSizeAsWrittenWraps | bmp-xor.c:117-119 | a 524288 x 65536 image needs 2^32 key bytes, but the 32-bit product wraps to 0 |
| RowTransform.XorRow | bmp-xor.c:167-170 | the transformed row has the row's length |
| RowTransform.XorRowInvolutive | bmp-xor.c:167-170 | XORing a row twice with the same key bytes restores it |
| RowTransform.OffsetIsProduct | bmp-xor.c:117 | the row-by-row offset of row n in rows of w bytes is n * w |
| RowTransform.OffsetMonotone | bmp-xor.c:163-165 | an earlier row ends no later than a later row starts |
| RowTransform.OffsetWidthMonotone | bmp-xor.c:104 | wider rows start no earlier |
| RowTransform.XorRows | bmp-xor.c:162-173 | the transformed pixel data is exactly `rows` padded rows long |
| RowTransform.XorRowsRow | bmp-xor.c:163-173 | each byte of the result is the byte of its own row transformed with its own key chunk |
| RowTransform.XorRowsAt | bmp-xor.c:163-173 | byte j of row i is the input byte XOR key byte i*raw + j below `raw_data_width`, and the input byte in the padding |
| RowTransform.XorRowsFrame | bmp-xor.c:163-165 | the transformed rows depend only on the input bytes those rows occupy |
| RowTransform.XorRowsSplit | bmp-xor.c:163-173 | the last row's transform follows the earlier rows' transforms |
| RowTransform.XorRowsInvolutive | bmp-xor.c:163-173 | transforming the pixel data twice with the same key restores it |
| RowTransform.XorRowInPlace | bmp-xor.c:168-170 | the in-place loop leaves the row buffer equal to `XorRow` of its old contents |
| RowTransform.Read | bmp-xor.c:164-165 | a full `fread` fills the buffer with the next bytes of the stream |
| RowTransform.TransformRow | bmp-xor.c:164-172 | one pass reads a key block and a row, and hands the writer that row transformed; afterwards the row buffer holds the written row and the key block holds the key bytes read |
| RowTransform.TransformRows | bmp-xor.c:162-173 | the row loop's output is exactly the transformed rows (`XorRows`) |
| BmpXor.ExitCode | bmp-xor.c:42-145 | every error exits with a status from 1 to 9 |
| BmpXor.ExitStatus | bmp-xor.c:179 | the status is 0 exactly when the run succeeded |
| BmpXor.ExitCodeDistinguishesKinds | bmp-xor.c:42-145 | two errors share a status exactly when they are of the same kind |
| BmpXor.PixelStart | bmp-xor.c:97-99 | the stream position after the colour table, where the pixel rows start: 54 + 4 * `colors_used` |
| BmpXor.StoredBitCount | bmp-xor.c:72-82 | `bit_count` as the cleared, byte-by-byte header read leaves it: the field at offset 28 in a file of 30 bytes or more, the byte at 28 alone in a 29-byte file, 0 in one of 28 bytes or fewer |
| BmpXor.InfoFieldsOf | bmp-xor.c:19-31 | the header size, width, height, depth and colour count of the block at offset 14 are the fields at file offsets 14, 18, 22, 28 and 46 |
| BmpXor.InfoFieldsAt | bmp-xor.c:82 | the information header the read accepts has its fields at file offsets 14, 18, 22, 28 and 46 |
| BmpXor.ReadHeaders | bmp-xor.c:53-99 | an accepted input has a 40-byte information header and depth 1; the information header is bytes 14..54; exactly `colors_used` colour entries are read, and the input holds all of them |
| BmpXor.WriteHeaders | bmp-xor.c:147-157 | the headers and colour table are written as 54 + 4n bytes |
| BmpXor.WriteHeadersCopies | bmp-xor.c:147-157 | the headers and colour table written are the input's leading bytes, unchanged |
| BmpXor.ReadHeadersAgree | bmp-xor.c:53-99 | two inputs that agree on the fields the header read looks at are read alike |
| BmpXor.ReadHeadersLocal | bmp-xor.c:53-99 | the header read depends only on the bytes before the pixel rows |
| BmpXor.RowLayout | bmp-xor.c:101-104 | the geometry is accepted exactly when width and height are non-negative; the row holds ceil(px_width / 8) pixel bytes (8 * raw >= width > 8 * (raw - 1)), the stored row is that padded to a multiple of 4 with fewer than 4 extra bytes, and there is one row per unit of height |
| BmpXor.ImageDataSize | bmp-xor.c:117 | the key bytes the image needs, raw * rows built row by row (its product form is `ImageDataSizeIsProduct`) |
| BmpXor.ImageDataSizeIsProduct | bmp-xor.c:117 | the key size demanded is raw_data_width * px_height; the stored rows take data_table_width * px_height bytes, no fewer |
| BmpXor.Prepare | bmp-xor.c:53-104 | a plan is made exactly when the header read and the geometry both succeed |
| BmpXor.Output | bmp-xor.c:147-173 | the output is the headers plus exactly the padded rows |
| BmpXor.Run | bmp-xor.c:40-180 | `main`: a run succeeds only with four arguments, every file available and the headers accepted, and then writes no more bytes than the input holds |
| BmpXor.Transform | bmp-xor.c:40-180 | a run with three arguments whose files all open; success needs accepted headers and writes no more bytes than the input holds |
| BmpXor.Execute | bmp-xor.c:40-180 | the program's control flow, with the row loop, produces exactly `Run`'s result |
| BmpXor.ArgumentsCheckedFirst | bmp-xor.c:42-51 | the wrong argument count fails with status 1 whatever else holds, then an unopenable input with status 2 |
| BmpXor.HeaderVariantRejected | bmp-xor.c:53-67 | a run stops on the header variant exactly when the field at offset 14 is not 40 (or the file ends at offset 14), reporting the size found |
| BmpXor.BitDepthRejected | bmp-xor.c:84-94 | with a 40-byte header, a run stops on the bit depth exactly when `bit_count` as read is not 1, reporting it; a file shorter than 29 bytes stops here with depth 0 |
| BmpXor.KeySizeChecked | bmp-xor.c:115-131 | a run stops on the key size exactly when the key is not raw_data_width * px_height bytes long, reporting both sizes, and before the output is created |
| BmpXor.KeyAndOutputChecked | bmp-xor.c:107-145 | once the headers are accepted, a key file that cannot be opened gives status 5; with a key of the right size, an output file that cannot be created gives status 7 |
| BmpXor.TransformOutput | bmp-xor.c:133-173 | a successful run had a key of the right size and an input holding all rows, and wrote `Output` |
| BmpXor.TransformPlanned | bmp-xor.c:133-173 | with a plan, a key of the right size and all rows present, the run succeeds and writes `Output` |
| BmpXor.TransformSucceeds | bmp-xor.c:40-180 | a run succeeds exactly when the headers and geometry are accepted, the key is raw * height bytes, and the input holds padded * height row bytes |
| BmpXor.OutputCopiesHeaders | bmp-xor.c:147-157 | a successful run's output starts with the input's headers and colour table, unchanged, up to byte 54 + 4 * `colors_used` (the field at offset 46), and has that many bytes plus padded * height |
| BmpXor.OutputRowByte | bmp-xor.c:159-173 | byte j of stored row i of the output is the input byte XOR key byte i * raw + j below `raw_data_width`, and the input byte in the padding |
| BmpXor.OutputPrepared | bmp-xor.c:147-173 | the output is accepted with the same plan, and its pixel rows are the transformed rows |
| BmpXor.OutputInvolutive | bmp-xor.c:159-173 | writing the output again from the output with the same key restores the input up to its last row |
| BmpXor.RoundTrip | bmp-xor.c:40-180 | running the program on its own output with the same key succeeds and gives back the input, up to the end of its pixel rows |
| BmpXor.ZeroWidth | bmp-xor.c:103-173 | an image zero pixels wide needs an empty key; with one, the output is the headers and colour table alone |

## Left out

- `argv` is reduced to `argc`, and `fopen` becomes parameters.
- The usage text and the `strerror` messages are not modelled.
- `fclose` is not modelled.
- `fseek` and `ftell` are replaced by indexing into the file contents.
- BmpXor.Run: when a read comes up short, the model stops with `TruncatedInput` (status 8). The program instead carries on with zeros or stale buffer contents. This applies to files of 15–17 bytes, a file cut short inside the information header whose depth still reads as 1, a short colour table, and short pixel rows. A file cut short inside the information header whose depth does not read as 1 gets status 4, as in the program.
- BmpXor.Run: a file of 15–17 bytes stops with `TruncatedInput`. In the program, the partly read header size would decide the outcome.
- BmpXor.RowLayout: a negative `px_width` or `px_height` stops with `InvalidGeometry` (status 9). In the program, a `px_width` from -14 to -1 truncates to 0 bytes per row at line 103, so the image is treated as zero pixels wide. A `px_width` of -15 or less gives a huge `uint32_t` row width. A negative `px_height` becomes a huge `uint32_t` row count.
- Fields are read and written by `fread` and `fwrite` of native integers. The model fixes them as little-endian, so it describes the program on a little-endian host only. On a big-endian host, the header-size check, the depth check and the width would read other values.
- The input and output files are opened in text mode. The model treats every stream as binary, which holds on POSIX systems.
- BmpXor.Run: the output is modelled as a whole on success. The headers the program has already written before a failure are not modelled.
- Variable-length stack arrays (`indexed_color`, `key_block`, `padded_row`) have no size limit in the model.
- `offset_bits` is ignored as the program ignores it: the rows are taken to follow the colour table directly.
- Input bytes after the last stored row are not copied, as in the program.
- Information-header fields the program never interprets are kept as bytes and written back unchanged.
- The model uses the unbounded `RawWidth` and `ImageDataSize`. The 32-bit evaluation appears only in the Findings members.

## Findings

| source | as written | input that shows it | evidently intended | confidence | as-written member | corrected member |
|---|---|---|---|---|---|---|
| bmp-xor.c:103 | `px_width + 7` is an `int32_t` addition, which overflows for widths above 2^31 - 8 | `px_width` = 2^31 - 1: the expression yields 0xF000_0001 bytes per row instead of 2^28 if the addition wraps (C leaves the overflow undefined) | ceil(px_width / 8) bytes per row | not executed | Geometry.RawWidthAsWrittenOverflows | Geometry.RawWidth |
| bmp-xor.c:117 | `raw_data_width * px_height` is a 32-bit unsigned product, which wraps | width 524288, height 65536: the product wraps to 0, so an empty key passes the size check | the key must hold raw * height bytes | not executed | Geometry.ImageDataSizeAsWrittenWraps | BmpXor.KeySizeChecked |

=== FILE: bitmap_format.dfy ===
/**
 The on-disk records of a Windows bitmap that the program reads and writes
 back: the 14-byte file header, the 40-byte ("version 3") information
 header and the colour table of 4-byte entries. Each record is decoded
 field by field from little-endian bytes and encoded back the same way.
 */
module BitmapFormat {
  import opened LittleEndian

  /** Size of the file header, which is also where the information header starts. */
  const FILE_HEADER_SIZE: nat := 14
  const INFO_HEADER_START: nat := 14
  /** The only information-header size the program accepts. */
  const INFO_HEADER_SIZE: nat := 40
  /** Both headers together: where the colour table starts. */
  const HEADERS_SIZE: nat := 54
  const COLOR_DEFINITION_SIZE: nat := 4

  datatype FileHeader = FileHeader(fileType: bv16, size: bv32, reserved: bv32, offsetBits: bv32)

  /**
   The information header, kept as the 40-byte block that is read and written
   as a whole. Its fields are little-endian views into the block: the
   header size at offset 0, `px_width` and `px_height` (`int32_t`) at 4 and 8,
   `planes` at 12, `bit_count` at 14, `compression` at 16, `image_size` at 20,
   the two resolutions at 24 and 28, `colors_used` at 32 and
   `color_important` at 36.
   */
  type InfoHeader = b: seq<bv8> | |b| == INFO_HEADER_SIZE witness seq(40, _ => 0)

  datatype ColorDefinition = ColorDefinition(blue: bv8, green: bv8, red: bv8, reserved: bv8)

  // ---------------------------------------------------------------- file header

  /**
   The file header's four fields, read one after the other from offset `at`;
   writing them back reproduces the header's 14 bytes.
   */
  function DecodeFileHeader(s: seq<bv8>, at: nat): (h: FileHeader)
    requires at + FILE_HEADER_SIZE <= |s|
    ensures EncodeFileHeader(h) == s[at..at + FILE_HEADER_SIZE]
  {
    EncodeU16OfU16(s, at);
    EncodeU32OfU32(s, at + 2);
    EncodeU32OfU32(s, at + 6);
    EncodeU32OfU32(s, at + 10);
    JoinSlices(s, at, at + 2, at + 6);
    JoinSlices(s, at, at + 6, at + 10);
    JoinSlices(s, at, at + 10, at + 14);
    FileHeader(U16(s, at), U32(s, at + 2), U32(s, at + 6), U32(s, at + 10))
  }

  /** The file header's four fields written one after the other. */
  function EncodeFileHeader(h: FileHeader): (r: seq<bv8>)
    ensures |r| == FILE_HEADER_SIZE
  {
    EncodeU16(h.fileType) + EncodeU32(h.size) + EncodeU32(h.reserved) + EncodeU32(h.offsetBits)
  }

  /** Writing a file header and reading it back gives the same fields. */
  lemma {:induction false} DecodeEncodeFileHeader(h: FileHeader)
    ensures DecodeFileHeader(EncodeFileHeader(h), 0) == h
  {
    var r := EncodeFileHeader(h);
    U16Local(r, 0, EncodeU16(h.fileType), 0);
    U32Local(r, 2, EncodeU32(h.size), 0);
    U32Local(r, 6, EncodeU32(h.reserved), 0);
    U32Local(r, 10, EncodeU32(h.offsetBits), 0);
  }

  // ---------------------------------------------------------- information header

  function HeaderSize(h: InfoHeader): bv32 { U32(h, 0) }
  function PxWidth(h: InfoHeader): int { Signed32(h, 4) }
  function PxHeight(h: InfoHeader): int { Signed32(h, 8) }
  function BitCount(h: InfoHeader): bv16 { U16(h, 14) }
  function ColorsUsed(h: InfoHeader): nat { Unsigned32(h, 32) }

  // ----------------------------------------------------------------- colour table

  function DecodeColor(s: seq<bv8>, at: nat): ColorDefinition
    requires at + COLOR_DEFINITION_SIZE <= |s|
  {
    ColorDefinition(s[at], s[at + 1], s[at + 2], s[at + 3])
  }

  function EncodeColor(c: ColorDefinition): seq<bv8>
  {
    [c.blue, c.green, c.red, c.reserved]
  }

  /** The `n` colour entries stored one after the other from offset `at`. */
  function DecodeColorTable(s: seq<bv8>, at: nat, n: nat): (r: seq<ColorDefinition>)
    requires at + COLOR_DEFINITION_SIZE * n <= |s|
    ensures |r| == n
    ensures forall i :: 0 <= i < n ==> r[i] == DecodeColor(s, at + COLOR_DEFINITION_SIZE * i)
    decreases n
  {
    if n == 0 then [] else [DecodeColor(s, at)] + DecodeColorTable(s, at + COLOR_DEFINITION_SIZE, n - 1)
  }

  /** The colour entries written one after the other, in index order. */
  function EncodeColorTable(t: seq<ColorDefinition>): (r: seq<bv8>)
    ensures |r| == COLOR_DEFINITION_SIZE * |t|
    ensures forall i :: 0 <= i < |t| ==> DecodeColor(r, COLOR_DEFINITION_SIZE * i) == t[i]
  {
    if t == [] then [] else EncodeColor(t[0]) + EncodeColorTable(t[1..])
  }

  /** Writing a colour table and reading it back gives the same entries, in the same order. */
  lemma {:induction false} DecodeEncodeColorTable(t: seq<ColorDefinition>)
    ensures DecodeColorTable(EncodeColorTable(t), 0, |t|) == t
  {
  }

  /** Reading `n` colour entries and writing them back reproduces their bytes. */
  lemma {:induction false} EncodeDecodeColorTable(s: seq<bv8>, at: nat, n: nat)
    requires at + COLOR_DEFINITION_SIZE * n <= |s|
    ensures EncodeColorTable(DecodeColorTable(s, at, n)) == s[at..at + COLOR_DEFINITION_SIZE * n]
    decreases n
  {
    if n > 0 {
      var t := DecodeColorTable(s, at, n);
      assert t[1..] == DecodeColorTable(s, at + 4, n - 1);
      EncodeDecodeColorTable(s, at + 4, n - 1);
      JoinSlices(s, at, at + 4, at + 4 * n);
    }
  }

  // ------------------------------------------------------------------ together

  /**
   Reading both headers and `n` colour entries and writing them back in the
   same order reproduces the first 54 + 4n bytes.
   */
  lemma {:induction false} EncodeDecodeHeaders(s: seq<bv8>, n: nat)
    requires HEADERS_SIZE + COLOR_DEFINITION_SIZE * n <= |s|
    ensures EncodeFileHeader(DecodeFileHeader(s, 0)) + s[INFO_HEADER_START..HEADERS_SIZE] +
            EncodeColorTable(DecodeColorTable(s, HEADERS_SIZE, n)) == s[..HEADERS_SIZE + COLOR_DEFINITION_SIZE * n]
  {
    EncodeDecodeColorTable(s, HEADERS_SIZE, n);
    JoinSlices(s, 0, FILE_HEADER_SIZE, HEADERS_SIZE);
    JoinSlices(s, 0, HEADERS_SIZE, HEADERS_SIZE + COLOR_DEFINITION_SIZE * n);
  }

  /**
   Both headers and the `n` colour entries are decoded from the first
   54 + 4n bytes alone.
   */
  lemma {:induction false} DecodeHeadersLocal(s: seq<bv8>, t: seq<bv8>, n: nat)
    requires HEADERS_SIZE + COLOR_DEFINITION_SIZE * n <= |s| && HEADERS_SIZE + COLOR_DEFINITION_SIZE * n <= |t|
    requires s[..HEADERS_SIZE + COLOR_DEFINITION_SIZE * n] == t[..HEADERS_SIZE + COLOR_DEFINITION_SIZE * n]
    ensures U32(s, INFO_HEADER_START) == U32(t, INFO_HEADER_START)
    ensures DecodeFileHeader(s, 0) == DecodeFileHeader(t, 0)
    ensures s[INFO_HEADER_START..HEADERS_SIZE] == t[INFO_HEADER_START..HEADERS_SIZE]
    ensures DecodeColorTable(s, HEADERS_SIZE, n) == DecodeColorTable(t, HEADERS_SIZE, n)
  {
    var end := HEADERS_SIZE + COLOR_DEFINITION_SIZE * n;
    forall k | 0 <= k < end
      ensures s[k] == t[k]
    {
      assert s[k] == s[..end][k];
    }
    U32Local(s, INFO_HEADER_START, t, INFO_HEADER_START);
    U16Local(s, 0, t, 0);
    U32Local(s, 2, t, 2);
    U32Local(s, 6, t, 6);
    U32Local(s, 10, t, 10);
    assert s[INFO_HEADER_START..HEADERS_SIZE] == t[INFO_HEADER_START..HEADERS_SIZE];
  }
}

=== FILE: bmp_xor.dfy ===
/**
 The `bmp-xor` program: it reads a one-bit-per-pixel bitmap and a key file
 (a one-time pad), checks that the key holds exactly one byte per
 unpadded pixel byte, and writes a new bitmap whose headers and colour table
 are copied unchanged and whose pixel rows are XORed with the key, row by
 row, leaving the row padding untouched. Applying the program twice with the
 same key gives the original bitmap back.

 File access is modelled by values: the input image and the key are the
 contents of the opened files (`None` when opening fails), and whether the
 output file can be created is a flag. The result is either the bytes
 written to the output file or the error that stopped the run.
 */
module BmpXor {
  import opened LittleEndian
  import opened BitmapFormat
  import opened Geometry
  import opened RowTransform

  datatype Option<T> = None | Some(value: T)

  /** Every way a run can stop early. */
  datatype Error =
    | UsageError
    | InputOpenFailed
    | UnsupportedHeaderVariant(headerSize: bv32)
    | UnsupportedBitDepth(bitCount: bv16)
    | KeyOpenFailed
    | KeySizeMismatch(keySize: nat, imageDataSize: nat)
    | OutputCreateFailed
    | TruncatedInput
    | InvalidGeometry

  datatype Result<T> = Ok(value: T) | Failure(error: Error)

  /** The process exit status of an error; a successful run exits with 0. */
  function ExitCode(e: Error): (code: int)
    ensures 1 <= code <= 9
  {
    match e
    case UsageError => 1
    case InputOpenFailed => 2
    case UnsupportedHeaderVariant(_) => 3
    case UnsupportedBitDepth(_) => 4
    case KeyOpenFailed => 5
    case KeySizeMismatch(_, _) => 6
    case OutputCreateFailed => 7
    case TruncatedInput => 8
    case InvalidGeometry => 9
  }

  function ExitStatus<T>(r: Result<T>): (code: int)
    ensures code == 0 <==> r.Ok?
  {
    if r.Ok? then 0 else ExitCode(r.error)
  }

  /** Two errors of different kinds never share an exit status. */
  lemma {:induction false} ExitCodeDistinguishesKinds(a: Error, b: Error)
    ensures ExitCode(a) == ExitCode(b) <==>
      (a.UsageError? && b.UsageError?) || (a.InputOpenFailed? && b.InputOpenFailed?) ||
      (a.UnsupportedHeaderVariant? && b.UnsupportedHeaderVariant?) ||
      (a.UnsupportedBitDepth? && b.UnsupportedBitDepth?) ||
      (a.KeyOpenFailed? && b.KeyOpenFailed?) || (a.KeySizeMismatch? && b.KeySizeMismatch?) ||
      (a.OutputCreateFailed? && b.OutputCreateFailed?) || (a.TruncatedInput? && b.TruncatedInput?) ||
      (a.InvalidGeometry? && b.InvalidGeometry?)
  {
  }

  // ------------------------------------------------------------------ headers

  /** What is read from the input before the pixel rows. */
  datatype Bitmap = Bitmap(fileHeader: FileHeader, infoHeader: InfoHeader, colors: seq<ColorDefinition>)

  /** Where the pixel rows start: right after the colour table. */
  function PixelStart(b: Bitmap): nat
  {
    HEADERS_SIZE + COLOR_DEFINITION_SIZE * |b.colors|
  }

  /**
   `bit_count` as the information-header read leaves it. The header is
   cleared first and read one byte at a time, so a file that ends before
   offset 30 leaves the missing bytes of the field zero.
   */
  function StoredBitCount(image: seq<bv8>): (r: bv16)
    ensures |image| >= 30 ==> r == U16(image, 28)
    ensures |image| == 29 ==> r == image[28] as bv16
    ensures |image| <= 28 ==> r == 0
  {
    (if |image| > 28 then image[28] as bv16 else 0) |
    (if |image| > 29 then (image[29] as bv16) << 8 else 0)
  }

  /**
   Read the headers and the colour table. The information-header size at
   offset 14 is checked first: a file of at most 14 bytes leaves it at its
   initial 0. Then the two headers are read and the bit depth checked, then
   `colors_used` colour entries are read.
   */
  function ReadHeaders(image: seq<bv8>): (r: Result<Bitmap>)
    ensures r.Ok? ==> PixelStart(r.value) <= |image|
    ensures r.Ok? ==> |image| >= HEADERS_SIZE && HeaderSize(r.value.infoHeader) == 40 && BitCount(r.value.infoHeader) == 1
    ensures r.Ok? ==> r.value.infoHeader == image[INFO_HEADER_START..HEADERS_SIZE]
    ensures r.Ok? ==> |r.value.colors| == ColorsUsed(r.value.infoHeader)
  {
    if |image| <= INFO_HEADER_START then Failure(UnsupportedHeaderVariant(0))
    else if |image| < INFO_HEADER_START + 4 then Failure(TruncatedInput)
    else if U32(image, INFO_HEADER_START) != 40 then
      Failure(UnsupportedHeaderVariant(U32(image, INFO_HEADER_START)))
    else if StoredBitCount(image) != 1 then Failure(UnsupportedBitDepth(StoredBitCount(image)))
    else if |image| < HEADERS_SIZE then Failure(TruncatedInput)
    else
      var info: InfoHeader := image[INFO_HEADER_START..HEADERS_SIZE];
      assert HeaderSize(info) == U32(image, INFO_HEADER_START) && BitCount(info) == StoredBitCount(image) by {
        U32Local(info, 0, image, INFO_HEADER_START);
        U16Local(info, 14, image, 28);
      }
      if |image| < HEADERS_SIZE + COLOR_DEFINITION_SIZE * ColorsUsed(info) then Failure(TruncatedInput)
      else
        Ok(Bitmap(DecodeFileHeader(image, 0), info, DecodeColorTable(image, HEADERS_SIZE, ColorsUsed(info))))
  }

  /** The headers and colour table written back, in the order they were read. */
  function WriteHeaders(b: Bitmap): (r: seq<bv8>)
    ensures |r| == PixelStart(b)
  {
    EncodeFileHeader(b.fileHeader) + b.infoHeader + EncodeColorTable(b.colors)
  }

  /** Reading the headers and writing them back copies the input's leading bytes unchanged. */
  lemma {:induction false} WriteHeadersCopies(image: seq<bv8>)
    requires ReadHeaders(image).Ok?
    ensures WriteHeaders(ReadHeaders(image).value) == image[..PixelStart(ReadHeaders(image).value)]
  {
    var b := ReadHeaders(image).value;
    EncodeDecodeHeaders(image, |b.colors|);
  }

  /**
   Where the information-header fields the program interprets sit in the
   file: the header size at offset 14, `px_width` at 18, `px_height` at 22,
   `bit_count` at 28 and `colors_used` at 46.
   */
  lemma {:induction false} InfoFieldsAt(image: seq<bv8>)
    requires ReadHeaders(image).Ok?
    ensures var h := ReadHeaders(image).value.infoHeader;
      HeaderSize(h) == U32(image, 14) && BitCount(h) == U16(image, 28) &&
      PxWidth(h) == Signed32(image, 18) && PxHeight(h) == Signed32(image, 22) &&
      ColorsUsed(h) == Unsigned32(image, 46)
  {
    assert ReadHeaders(image).value.infoHeader == image[INFO_HEADER_START..HEADERS_SIZE];
    InfoFieldsOf(image);
  }

  /** The fields of the 40 bytes at offset 14, located in the file itself. */
  lemma {:induction false} InfoFieldsOf(image: seq<bv8>)
    requires |image| >= HEADERS_SIZE
    ensures var h: InfoHeader := image[INFO_HEADER_START..HEADERS_SIZE];
      HeaderSize(h) == U32(image, 14) && BitCount(h) == U16(image, 28) &&
      PxWidth(h) == Signed32(image, 18) && PxHeight(h) == Signed32(image, 22) &&
      ColorsUsed(h) == Unsigned32(image, 46)
  {
    var h: InfoHeader := image[INFO_HEADER_START..HEADERS_SIZE];
    U32Local(h, 0, image, 14);
    U16Local(h, 14, image, 28);
    assert h[4..8] == image[18..22];
    assert h[8..12] == image[22..26];
    assert h[32..36] == image[46..50];
  }

  /** Two inputs that agree on every field the header read looks at are read alike. */
  lemma {:induction false} ReadHeadersAgree(s: seq<bv8>, t: seq<bv8>)
    requires |s| >= HEADERS_SIZE && |t| >= HEADERS_SIZE
    requires U32(s, INFO_HEADER_START) == U32(t, INFO_HEADER_START)
    requires s[INFO_HEADER_START..HEADERS_SIZE] == t[INFO_HEADER_START..HEADERS_SIZE]
    requires StoredBitCount(s) == StoredBitCount(t)
    requires DecodeFileHeader(s, 0) == DecodeFileHeader(t, 0)
    requires var n := ColorsUsed(s[INFO_HEADER_START..HEADERS_SIZE]);
      HEADERS_SIZE + COLOR_DEFINITION_SIZE * n <= |s| && HEADERS_SIZE + COLOR_DEFINITION_SIZE * n <= |t| &&
      DecodeColorTable(s, HEADERS_SIZE, n) == DecodeColorTable(t, HEADERS_SIZE, n)
    ensures ReadHeaders(s) == ReadHeaders(t)
  {
  }

  /** A successful header read looks only at the bytes before the pixel rows. */
  lemma {:induction false} ReadHeadersLocal(image: seq<bv8>, other: seq<bv8>)
    requires ReadHeaders(image).Ok?
    requires PixelStart(ReadHeaders(image).value) <= |other|
    requires other[..PixelStart(ReadHeaders(image).value)] == image[..PixelStart(ReadHeaders(image).value)]
    ensures ReadHeaders(other) == ReadHeaders(image)
  {
    var b := ReadHeaders(image).value;
    DecodeHeadersLocal(other, image, |b.colors|);
    assert b.infoHeader == image[INFO_HEADER_START..HEADERS_SIZE];
    assert StoredBitCount(other) == StoredBitCount(image) by {
      U16Local(other, 28, other[INFO_HEADER_START..HEADERS_SIZE], 14);
      U16Local(image, 28, image[INFO_HEADER_START..HEADERS_SIZE], 14);
    }
    ReadHeadersAgree(other, image);
  }

  // ----------------------------------------------------------------- geometry

  /** The row layout: bytes of pixels per row, bytes per stored row, and the row count. */
  datatype Layout = Layout(raw: nat, padded: nat, rows: nat)

  /**
   Row geometry from the information header: ceil(px_width / 8) pixel bytes
   per row, padded to a multiple of 4. A negative width or height is
   rejected.
   */
  function RowLayout(info: InfoHeader): (r: Result<Layout>)
    ensures r.Ok? <==> PxWidth(info) >= 0 && PxHeight(info) >= 0
    ensures r.Ok? ==> r.value.raw <= r.value.padded < r.value.raw + 4 && r.value.padded % 4 == 0
    ensures r.Ok? ==> r.value.rows == PxHeight(info) && 8 * r.value.raw >= PxWidth(info)
    ensures r.Ok? && r.value.raw > 0 ==> 8 * (r.value.raw - 1) < PxWidth(info)
  {
    if PxWidth(info) < 0 || PxHeight(info) < 0 then Failure(InvalidGeometry)
    else Ok(Layout(RawWidth(PxWidth(info)), Padded(RawWidth(PxWidth(info))), PxHeight(info)))
  }

  /**
   Key bytes the image needs: one per unpadded pixel byte, raw * rows
   (see `ImageDataSizeIsProduct`).
   */
  function ImageDataSize(l: Layout): nat
  {
    Offset(l.rows, l.raw)
  }

  /** Bytes the stored pixel rows occupy, padding included: padded * rows. */
  function PaddedDataSize(l: Layout): nat
  {
    Offset(l.rows, l.padded)
  }

  /**
   The two sizes are the products the program computes, and the key never
   needs more bytes than the stored rows hold.
   */
  lemma {:induction false} ImageDataSizeIsProduct(l: Layout)
    ensures ImageDataSize(l) == l.raw * l.rows
    ensures PaddedDataSize(l) == l.padded * l.rows
    ensures l.raw <= l.padded ==> ImageDataSize(l) <= PaddedDataSize(l)
  {
    OffsetIsProduct(l.rows, l.raw);
    OffsetIsProduct(l.rows, l.padded);
    if l.raw <= l.padded {
      OffsetWidthMonotone(l.rows, l.raw, l.padded);
    }
  }

  /** What is known about the input once its headers and geometry are accepted. */
  datatype Plan = Plan(headers: Bitmap, layout: Layout)

  /** Everything the program reads and computes before it opens the key file. */
  function Prepare(image: seq<bv8>): (r: Result<Plan>)
    ensures r.Ok? ==> ReadHeaders(image) == Ok(r.value.headers)
    ensures r.Ok? ==> RowLayout(r.value.headers.infoHeader) == Ok(r.value.layout)
    ensures r.Failure? ==> ReadHeaders(image).Failure? || RowLayout(ReadHeaders(image).value.infoHeader).Failure?
  {
    match ReadHeaders(image)
    case Failure(e) => Failure(e)
    case Ok(b) =>
      match RowLayout(b.infoHeader)
      case Failure(e) => Failure(e)
      case Ok(l) => Ok(Plan(b, l))
  }

  /** The bytes written to the output: the headers again, then the transformed rows. */
  function Output(image: seq<bv8>, key: seq<bv8>, p: Plan): (out: seq<bv8>)
    requires PixelStart(p.headers) + PaddedDataSize(p.layout) <= |image|
    requires p.layout.raw <= p.layout.padded && |key| == ImageDataSize(p.layout)
    ensures |out| == PixelStart(p.headers) + PaddedDataSize(p.layout)
  {
    WriteHeaders(p.headers) + XorRows(image[PixelStart(p.headers)..], key, p.layout.raw, p.layout.padded, p.layout.rows)
  }

  // ---------------------------------------------------------------- a run

  /**
   One run of the program, `xor <input> <key> <output>`, with the checks in
   the order the program makes them.
   */
  function Run(argc: int, image: Option<seq<bv8>>, key: Option<seq<bv8>>, outputCreatable: bool): (r: Result<seq<bv8>>)
    ensures r.Ok? ==> argc == 4 && image.Some? && key.Some? && outputCreatable
    ensures r.Ok? ==> Prepare(image.value).Ok? && |r.value| <= |image.value|
  {
    if argc != 4 then Failure(UsageError)
    else if image.None? then Failure(InputOpenFailed)
    else
      match Prepare(image.value)
      case Failure(e) => Failure(e)
      case Ok(p) =>
        if key.None? then Failure(KeyOpenFailed)
        else if |key.value| != ImageDataSize(p.layout) then
          Failure(KeySizeMismatch(|key.value|, ImageDataSize(p.layout)))
        else if !outputCreatable then Failure(OutputCreateFailed)
        else if |image.value| < PixelStart(p.headers) + PaddedDataSize(p.layout) then Failure(TruncatedInput)
        else Ok(Output(image.value, key.value, p))
  }

  /** A run with three arguments whose files all open. */
  function Transform(image: seq<bv8>, key: seq<bv8>): (r: Result<seq<bv8>>)
    ensures r.Ok? ==> Prepare(image).Ok? && |r.value| <= |image|
  {
    Run(4, Some(image), Some(key), true)
  }

  /**
   The program's control flow: the same checks in the same order, with the
   pixel rows produced by the row loop over its two buffers.
   */
  method Execute(argc: int, image: Option<seq<bv8>>, key: Option<seq<bv8>>, outputCreatable: bool)
      returns (r: Result<seq<bv8>>)
    ensures r == Run(argc, image, key, outputCreatable)
  {
    if argc != 4 {
      return Failure(UsageError);
    }
    if image.None? {
      return Failure(InputOpenFailed);
    }
    var input := image.value;
    var prepared := Prepare(input);
    if prepared.Failure? {
      return Failure(prepared.error);
    }
    var p := prepared.value;
    if key.None? {
      return Failure(KeyOpenFailed);
    }
    var keyData := key.value;
    if |keyData| != ImageDataSize(p.layout) {
      return Failure(KeySizeMismatch(|keyData|, ImageDataSize(p.layout)));
    }
    if !outputCreatable {
      return Failure(OutputCreateFailed);
    }
    var start := PixelStart(p.headers);
    if |input| < start + PaddedDataSize(p.layout) {
      return Failure(TruncatedInput);
    }
    var written := WriteHeaders(p.headers);
    var rows := TransformRows(input[start..], keyData, p.layout.raw, p.layout.padded, p.layout.rows);
    r := Ok(written + rows);
  }

  // --------------------------------------------------------------- properties

  /**
   The first two checks: the argument count, then whether the input opens;
   a run with the wrong argument count fails the same way whatever else holds.
   (That a successful run had every file is part of `Run`'s contract.)
   */
  lemma {:induction false} ArgumentsCheckedFirst(argc: int, image: Option<seq<bv8>>, key: Option<seq<bv8>>, outputCreatable: bool)
    ensures argc != 4 ==> Run(argc, image, key, outputCreatable) == Failure(UsageError)
    ensures argc == 4 && image.None? ==> Run(argc, image, key, outputCreatable) == Failure(InputOpenFailed)
  {
  }

  /**
   The header variant is checked before anything else in the file: a run
   stops with UnsupportedHeaderVariant exactly when the field at offset 14
   is not 40 (a file of at most 14 bytes leaves it 0), whatever the key and
   the output.
   */
  lemma {:induction false} HeaderVariantRejected(image: seq<bv8>, key: Option<seq<bv8>>, outputCreatable: bool)
    ensures (Run(4, Some(image), key, outputCreatable).Failure? &&
             Run(4, Some(image), key, outputCreatable).error.UnsupportedHeaderVariant?) <==>
            |image| <= INFO_HEADER_START ||
            (|image| >= INFO_HEADER_START + 4 && U32(image, INFO_HEADER_START) != 40)
    ensures |image| >= INFO_HEADER_START + 4 && U32(image, INFO_HEADER_START) != 40 ==>
            Run(4, Some(image), key, outputCreatable) == Failure(UnsupportedHeaderVariant(U32(image, INFO_HEADER_START)))
  {
  }

  /**
   With the 40-byte header present, a run stops with UnsupportedBitDepth
   exactly when `bit_count` as read is not 1, and reports it. In a file of
   at least 30 bytes that is the field at offset 28; in a shorter one the
   missing bytes read as zero, so the run stops here too.
   */
  lemma {:induction false} BitDepthRejected(image: seq<bv8>, key: Option<seq<bv8>>, outputCreatable: bool)
    requires |image| >= INFO_HEADER_START + 4 && U32(image, INFO_HEADER_START) == 40
    ensures (Run(4, Some(image), key, outputCreatable).Failure? &&
             Run(4, Some(image), key, outputCreatable).error.UnsupportedBitDepth?) <==> StoredBitCount(image) != 1
    ensures StoredBitCount(image) != 1 ==>
            Run(4, Some(image), key, outputCreatable) == Failure(UnsupportedBitDepth(StoredBitCount(image)))
    ensures |image| < 29 ==> Run(4, Some(image), key, outputCreatable) == Failure(UnsupportedBitDepth(0))
  {
  }

  /**
   Once the headers and geometry are accepted, the key must hold exactly
   ImageDataSize (raw_width * px_height, see `ImageDataSizeIsProduct`)
   bytes; otherwise the run stops with KeySizeMismatch, reporting both
   sizes, and it does so before the output file is created: the outcome
   does not depend on whether it can be.
   */
  lemma {:induction false} KeySizeChecked(image: seq<bv8>, key: seq<bv8>, outputCreatable: bool, p: Plan)
    requires Prepare(image) == Ok(p)
    ensures var r := Run(4, Some(image), Some(key), outputCreatable);
            (r.Failure? && r.error.KeySizeMismatch?) <==> |key| != ImageDataSize(p.layout)
    ensures |key| != ImageDataSize(p.layout) ==>
            Run(4, Some(image), Some(key), outputCreatable) == Failure(KeySizeMismatch(|key|, ImageDataSize(p.layout))) &&
            Run(4, Some(image), Some(key), false) == Run(4, Some(image), Some(key), true)
  {
  }

  /**
   The two file checks that follow the header read: a key file that cannot
   be opened stops the run with KeyOpenFailed (status 5) before its size is
   looked at; a key of the right size and an output file that cannot be
   created stop it with OutputCreateFailed (status 7).
   */
  lemma {:induction false} KeyAndOutputChecked(image: seq<bv8>, key: Option<seq<bv8>>, outputCreatable: bool, p: Plan)
    requires Prepare(image) == Ok(p)
    ensures key.None? ==> Run(4, Some(image), key, outputCreatable) == Failure(KeyOpenFailed)
    ensures key.Some? && |key.value| == ImageDataSize(p.layout) && !outputCreatable ==>
            Run(4, Some(image), key, outputCreatable) == Failure(OutputCreateFailed)
  {
  }

  /** What a successful run writes, and what it took for it to succeed. */
  lemma {:induction false} TransformOutput(image: seq<bv8>, key: seq<bv8>, p: Plan)
    requires Prepare(image) == Ok(p) && Transform(image, key).Ok?
    ensures |key| == ImageDataSize(p.layout)
    ensures PixelStart(p.headers) + PaddedDataSize(p.layout) <= |image|
    ensures Transform(image, key).value == Output(image, key, p)
  {
  }

  /**
   A run succeeds exactly when the headers are well formed, the geometry is
   valid, the key has one byte per unpadded pixel byte and the input holds
   all the padded rows.
   */
  lemma {:induction false} TransformSucceeds(image: seq<bv8>, key: seq<bv8>)
    ensures Transform(image, key).Ok? <==>
      Prepare(image).Ok? &&
      var l := Prepare(image).value.layout;
      |key| == l.raw * l.rows && PixelStart(Prepare(image).value.headers) + l.padded * l.rows <= |image|
  {
    if Prepare(image).Ok? {
      ImageDataSizeIsProduct(Prepare(image).value.layout);
    }
  }

  /**
   The output of a successful run: the input's headers and its
   `colors_used` colour entries, byte for byte, followed by exactly the
   padded pixel rows.
   */
  lemma {:induction false} OutputCopiesHeaders(image: seq<bv8>, key: seq<bv8>, p: Plan)
    requires Prepare(image) == Ok(p) && Transform(image, key).Ok?
    ensures |Transform(image, key).value| == PixelStart(p.headers) + PaddedDataSize(p.layout)
    ensures Transform(image, key).value[..PixelStart(p.headers)] == image[..PixelStart(p.headers)]
    ensures PixelStart(p.headers) == HEADERS_SIZE + COLOR_DEFINITION_SIZE * Unsigned32(image, 46)
  {
    InfoFieldsAt(image);
    TransformOutput(image, key, p);
    WriteHeadersCopies(image);
    var out := Output(image, key, p);
    assert out[..PixelStart(p.headers)] == WriteHeaders(p.headers);
  }

  /**
   Byte `j` of stored row `row` of the output, which sits `row` padded rows
   past the colour table: below the unpadded width it is the input byte
   XORed with the key byte `row` unpadded rows plus `j` into the key; in the
   padding it is the input byte unchanged. (`Offset(n, w)` is n * w, see
   `OffsetIsProduct`.)
   */
  lemma {:induction false} OutputRowByte(image: seq<bv8>, key: seq<bv8>, p: Plan, row: nat, j: nat)
    requires p.layout.raw <= p.layout.padded && |key| == ImageDataSize(p.layout)
    requires PixelStart(p.headers) + PaddedDataSize(p.layout) <= |image|
    requires row < p.layout.rows && j < p.layout.padded
    ensures PixelStart(p.headers) + Offset(row, p.layout.padded) + j < |Output(image, key, p)|
    ensures j < p.layout.raw ==> Offset(row, p.layout.raw) + j < |key|
    ensures var at := PixelStart(p.headers) + Offset(row, p.layout.padded) + j;
            Output(image, key, p)[at] ==
              if j < p.layout.raw then image[at] ^ key[Offset(row, p.layout.raw) + j] else image[at]
  {
    var l := p.layout;
    var start := PixelStart(p.headers);
    var pixels := image[start..];
    XorRowsAt(pixels, key, l.raw, l.padded, l.rows, row, j);
    var out := Output(image, key, p);
    assert out[start + Offset(row, l.padded) + j] == XorRows(pixels, key, l.raw, l.padded, l.rows)[Offset(row, l.padded) + j];
  }

  /**
   The output of a successful run is accepted by the same checks with the
   same plan: it starts with the same headers and colour table, and its
   pixel rows are the transformed rows.
   */
  lemma {:induction false} OutputPrepared(image: seq<bv8>, key: seq<bv8>, p: Plan)
    requires Prepare(image) == Ok(p) && Transform(image, key).Ok?
    ensures Prepare(Transform(image, key).value) == Ok(p)
    ensures Transform(image, key).value[PixelStart(p.headers)..] ==
            XorRows(image[PixelStart(p.headers)..], key, p.layout.raw, p.layout.padded, p.layout.rows)
  {
    var start := PixelStart(p.headers);
    TransformOutput(image, key, p);
    var out := Output(image, key, p);
    WriteHeadersCopies(image);
    assert out[..start] == image[..start];
    ReadHeadersLocal(image, out);
  }

  /** A run whose plan, key size and input size are right writes `Output`. */
  lemma {:induction false} TransformPlanned(image: seq<bv8>, key: seq<bv8>, p: Plan)
    requires Prepare(image) == Ok(p) && |key| == ImageDataSize(p.layout)
    requires PixelStart(p.headers) + PaddedDataSize(p.layout) <= |image|
    ensures Transform(image, key) == Ok(Output(image, key, p))
  {
  }

  /**
   Writing the output again from the output itself, with the same plan and
   key, restores the input's headers, colour table and padded rows.
   */
  lemma {:induction false} OutputInvolutive(image: seq<bv8>, key: seq<bv8>, p: Plan)
    requires p.layout.raw <= p.layout.padded && |key| == ImageDataSize(p.layout)
    requires PixelStart(p.headers) + PaddedDataSize(p.layout) <= |image|
    requires WriteHeaders(p.headers) == image[..PixelStart(p.headers)]
    ensures Output(Output(image, key, p), key, p) == image[..PixelStart(p.headers) + PaddedDataSize(p.layout)]
  {
    var l := p.layout;
    var start := PixelStart(p.headers);
    var end := PaddedDataSize(l);
    var pixels := image[start..];
    var out := Output(image, key, p);
    assert out[start..] == XorRows(pixels, key, l.raw, l.padded, l.rows);
    XorRowsInvolutive(pixels, key, l.raw, l.padded, l.rows);
    assert image[..start + end] == image[..start] + pixels[..end];
  }

  /**
   Applying the program to its own output with the same key gives the
   input back (up to the end of its pixel rows).
   */
  lemma {:induction false} RoundTrip(image: seq<bv8>, key: seq<bv8>)
    requires Transform(image, key).Ok?
    ensures Transform(Transform(image, key).value, key) == Ok(image[..|Transform(image, key).value|])
  {
    var p := Prepare(image).value;
    var out := Transform(image, key).value;
    var end := PixelStart(p.headers) + PaddedDataSize(p.layout);
    TransformOutput(image, key, p);
    assert |out| == end;
    OutputPrepared(image, key, p);
    TransformPlanned(out, key, p);
    WriteHeadersCopies(image);
    OutputInvolutive(image, key, p);
    assert Transform(out, key) == Ok(image[..end]);
  }

  /**
   An image zero pixels wide needs an empty key, and its output is the
   input's headers and colour table alone.
   */
  lemma {:induction false} ZeroWidth(image: seq<bv8>, key: seq<bv8>, p: Plan)
    requires Prepare(image) == Ok(p) && PxWidth(p.headers.infoHeader) == 0
    ensures key == [] ==> Transform(image, key) == Ok(image[..PixelStart(p.headers)])
    ensures key != [] ==> Transform(image, key) == Failure(KeySizeMismatch(|key|, 0))
  {
    var l := p.layout;
    assert l.raw == 0 && l.padded == 0;
    OffsetIsProduct(l.rows, 0);
    if key == [] {
      WriteHeadersCopies(image);
      assert XorRows(image[PixelStart(p.headers)..], [], 0, 0, l.rows) == [];
      assert Output(image, [], p) == WriteHeaders(p.headers);
    }
  }
}

=== FILE: bytes.dfy ===
/**
 Fixed-width integer fields stored little-endian inside a byte image, the
 encoding every multi-byte field of a BMP file uses.
 */
module LittleEndian {

  /** The unsigned 16-bit field whose low byte is at offset `at`. */
  function U16(s: seq<bv8>, at: nat): bv16
    requires at + 2 <= |s|
  {
    (s[at] as bv16) | ((s[at + 1] as bv16) << 8)
  }

  /** The unsigned 32-bit field whose low byte is at offset `at`. */
  function U32(s: seq<bv8>, at: nat): bv32
    requires at + 4 <= |s|
  {
    (s[at] as bv32) | ((s[at + 1] as bv32) << 8) |
    ((s[at + 2] as bv32) << 16) | ((s[at + 3] as bv32) << 24)
  }

  /** The two bytes that store `v`, low byte first. */
  function EncodeU16(v: bv16): (r: seq<bv8>)
    ensures |r| == 2 && U16(r, 0) == v
  {
    [(v & 0xFF) as bv8, (v >> 8) as bv8]
  }

  /** The four bytes that store `v`, low byte first. */
  function EncodeU32(v: bv32): (r: seq<bv8>)
    ensures |r| == 4 && U32(r, 0) == v
  {
    [(v & 0xFF) as bv8, ((v >> 8) & 0xFF) as bv8, ((v >> 16) & 0xFF) as bv8, (v >> 24) as bv8]
  }

  /** Reading a 16-bit field and writing it back reproduces its two bytes. */
  lemma {:induction false} EncodeU16OfU16(s: seq<bv8>, at: nat)
    requires at + 2 <= |s|
    ensures EncodeU16(U16(s, at)) == s[at..at + 2]
  {
    var r := EncodeU16(U16(s, at));
    assert r[0] == s[at] && r[1] == s[at + 1];
  }

  /** Reading a 32-bit field and writing it back reproduces its four bytes. */
  lemma {:induction false} EncodeU32OfU32(s: seq<bv8>, at: nat)
    requires at + 4 <= |s|
    ensures EncodeU32(U32(s, at)) == s[at..at + 4]
  {
    var r := EncodeU32(U32(s, at));
    assert r[0] == s[at] && r[1] == s[at + 1] && r[2] == s[at + 2] && r[3] == s[at + 3];
  }

  /** A field depends only on its own bytes, wherever they sit. */
  lemma {:induction false} U32Local(s: seq<bv8>, at: nat, t: seq<bv8>, at': nat)
    requires at + 4 <= |s| && at' + 4 <= |t|
    requires s[at] == t[at'] && s[at + 1] == t[at' + 1]
    requires s[at + 2] == t[at' + 2] && s[at + 3] == t[at' + 3]
    ensures U32(s, at) == U32(t, at')
  {
  }

  /** A field depends only on its own bytes, wherever they sit. */
  lemma {:induction false} U16Local(s: seq<bv8>, at: nat, t: seq<bv8>, at': nat)
    requires at + 2 <= |s| && at' + 2 <= |t|
    requires s[at] == t[at'] && s[at + 1] == t[at' + 1]
    ensures U16(s, at) == U16(t, at')
  {
  }

  /** Two adjacent slices of one sequence join into one slice. */
  lemma {:induction false} JoinSlices(s: seq<bv8>, a: nat, b: nat, c: nat)
    requires a <= b <= c <= |s|
    ensures s[a..b] + s[b..c] == s[a..c]
  {
  }

  /** 256 to the power `n`: one more than the largest value `n` bytes can hold. */
  function Radix(n: nat): nat
  {
    if n == 0 then 1 else 0x100 * Radix(n - 1)
  }

  /** The unsigned integer that little-endian `bytes` store: the first byte is the least significant. */
  function Unsigned(bytes: seq<bv8>): (r: nat)
    ensures r < Radix(|bytes|)
    decreases |bytes|
  {
    if bytes == [] then 0 else bytes[0] as nat + 0x100 * Unsigned(bytes[1..])
  }

  /** The unsigned 32-bit field at offset `at`, as a number. */
  function Unsigned32(s: seq<bv8>, at: nat): (r: nat)
    requires at + 4 <= |s|
    ensures r < 0x1_0000_0000
  {
    assert Radix(4) == 0x1_0000_0000;
    Unsigned(s[at..at + 4])
  }

  /**
   The 32-bit field at offset `at` read as a two's-complement `int32_t`: the
   integer in the signed range that is congruent to the field's unsigned
   value modulo 2^32.
   */
  function Signed32(s: seq<bv8>, at: nat): (r: int)
    requires at + 4 <= |s|
    ensures -0x8000_0000 <= r < 0x8000_0000
    ensures (r - Unsigned32(s, at)) % 0x1_0000_0000 == 0
  {
    var u := Unsigned32(s, at);
    if u < 0x8000_0000 then u else u - 0x1_0000_0000
  }

  // ------------------------------------------ the two readings of a field agree

  /** Two bytes side by side, low byte first, as a number. */
  lemma {:induction false} JoinBytes(x: bv8, y: bv8)
    ensures ((x as bv16) | ((y as bv16) << 8)) as int == x as int + 0x100 * y as int
  {
  }
  /** Two 16-bit halves side by side, low half first, as a number. */
  lemma {:induction false} JoinHalves(lo: bv16, hi: bv16)
    ensures ((lo as bv32) | ((hi as bv32) << 16)) as int == lo as int + 0x1_0000 * hi as int
  {
  }
  /** The numeric value of two bytes, low byte first. */
  lemma {:induction false} UnsignedPair(s: seq<bv8>, at: nat)
    requires at + 2 <= |s|
    ensures Unsigned(s[at..at + 2]) == s[at] as int + 0x100 * s[at + 1] as int
  {
    var b := s[at..at + 2];
    assert b[1..] == [s[at + 1]];
    assert b[1..][1..] == [];
  }
  /** The bit-vector and the numeric reading of a 16-bit field give the same value. */
  lemma {:induction false} U16IsUnsigned(s: seq<bv8>, at: nat)
    requires at + 2 <= |s|
    ensures U16(s, at) as int == Unsigned(s[at..at + 2])
  {
    JoinBytes(s[at], s[at + 1]);
    UnsignedPair(s, at);
  }
  /** A 32-bit field is its low 16-bit field followed by its high one. */
  lemma {:induction false} U32Halves(s: seq<bv8>, at: nat)
    requires at + 4 <= |s|
    ensures U32(s, at) == (U16(s, at) as bv32) | ((U16(s, at + 2) as bv32) << 16)
  {
  }
  /** The numeric value of four bytes, from the values of their two halves. */
  lemma {:induction false} UnsignedQuad(s: seq<bv8>, at: nat)
    requires at + 4 <= |s|
    ensures Unsigned32(s, at) == Unsigned(s[at..at + 2]) + 0x1_0000 * Unsigned(s[at + 2..at + 4])
  {
    var b := s[at..at + 4];
    assert b[1..][1..] == s[at + 2..at + 4];
    assert Unsigned(b) == s[at] as int + 0x100 * Unsigned(b[1..]);
    assert Unsigned(b[1..]) == s[at + 1] as int + 0x100 * Unsigned(s[at + 2..at + 4]);
    UnsignedPair(s, at);
  }
  /** The bit-vector and the numeric reading of a 32-bit field give the same value. */
  lemma {:induction false} U32IsUnsigned32(s: seq<bv8>, at: nat)
    requires at + 4 <= |s|
    ensures U32(s, at) as int == Unsigned32(s, at)
  {
    U32Halves(s, at);
    JoinHalves(U16(s, at), U16(s, at + 2));
    U16IsUnsigned(s, at);
    U16IsUnsigned(s, at + 2);
    UnsignedQuad(s, at);
  }
}

=== FILE: geometry.dfy ===
/**
 Row geometry of a one-bit-per-pixel bitmap: how many bytes carry the pixels
 of one row, and how many bytes the row occupies once padded to a 4-byte
 boundary. The last part models two expressions in 32-bit arithmetic, as a
 two's-complement machine whose signed addition wraps evaluates them (C
 itself leaves the signed overflow at line 103 undefined); the rest of the
 model uses the unbounded definitions above them.
 */
module Geometry {

  /**
   GET_PADDING: a byte count rounded up to the next multiple of 4; a count
   that already is a multiple of 4 is left as it is.
   */
  function Padded(n: nat): (r: nat)
    ensures r % 4 == 0
    ensures n <= r < n + 4
    ensures r == n <==> n % 4 == 0
  {
    if n % 4 != 0 then n + (4 - n % 4) else n
  }

  /** The bytes that hold one row of `pxWidth` one-bit pixels: ceil(pxWidth / 8). */
  function RawWidth(pxWidth: nat): (r: nat)
    ensures 8 * r >= pxWidth
    ensures r > 0 ==> 8 * (r - 1) < pxWidth
    ensures pxWidth == 0 ==> r == 0
  {
    (pxWidth + 7) / 8
  }

  /** A padded row never drops a pixel byte: padding only adds bytes at the end. */
  lemma {:induction false} PaddedCoversRaw(pxWidth: nat)
    ensures RawWidth(pxWidth) <= Padded(RawWidth(pxWidth)) < RawWidth(pxWidth) + 4
    ensures pxWidth % 32 == 0 ==> Padded(RawWidth(pxWidth)) == RawWidth(pxWidth)
  {
    if pxWidth % 32 == 0 {
      assert RawWidth(pxWidth) == 4 * (pxWidth / 32);
    }
  }

  // ------------------------------------------------- 32-bit arithmetic as written

  const INT32_MIN: int := -0x8000_0000
  const INT32_MAX: int := 0x7FFF_FFFF
  const TWO_TO_32: int := 0x1_0000_0000

  /** The `int32_t` that a two's-complement machine holds after an overflowing addition. */
  function WrapInt32(x: int): (r: int)
    ensures INT32_MIN <= r <= INT32_MAX
    ensures (r - x) % TWO_TO_32 == 0
  {
    (x - INT32_MIN) % TWO_TO_32 + INT32_MIN
  }

  /**
   C's integer `/`, which truncates toward zero: the remainder has the sign
   of the dividend and is smaller than the divisor.
   */
  function CDiv(a: int, b: int): (q: int)
    requires b > 0
    ensures a >= 0 ==> 0 <= a - q * b < b
    ensures a < 0 ==> -b < a - q * b <= 0
  {
    if a >= 0 then a / b else -((-a) / b)
  }

  /**
   `uint32_t raw_data_width = (px_width + (8 - 1)) / 8;` evaluated as a
   two's-complement machine whose signed addition wraps does: an `int`
   addition (which overflows for the largest widths, where C leaves the
   result undefined), division toward zero, then conversion to `uint32_t`
   modulo 2^32.
   */
  function RawWidthAsWritten(pxWidth: int): (r: nat)
    requires INT32_MIN <= pxWidth <= INT32_MAX
    ensures r < TWO_TO_32
  {
    CDiv(WrapInt32(pxWidth + 7), 8) % TWO_TO_32
  }

  /** Below the overflow the expression as written is the ceiling division. */
  lemma {:induction false} RawWidthAsWrittenAgrees(pxWidth: int)
    requires 0 <= pxWidth <= INT32_MAX - 7
    ensures RawWidthAsWritten(pxWidth) == RawWidth(pxWidth)
  {
    assert WrapInt32(pxWidth + 7) == pxWidth + 7;
  }

  /**
   For the largest widths the `int` addition overflows: a width of
   2^31 - 1 pixels needs 2^28 bytes per row, but the expression yields
   0xF000_0001 if the addition wraps.
   */
  lemma {:induction false} RawWidthAsWrittenOverflows()
    ensures RawWidthAsWritten(INT32_MAX) == 0xF000_0001
    ensures RawWidth(INT32_MAX) == 0x1000_0000
  {
    assert WrapInt32(INT32_MAX + 7) == -0x7FFF_FFFA;
    assert CDiv(-0x7FFF_FFFA, 8) == -0x0FFF_FFFF;
  }

  /**
   Small negative widths truncate to zero bytes per row; from -15 on the
   negative quotient turns into a huge `uint32_t`.
   */
  lemma {:induction false} RawWidthAsWrittenNegative()
    ensures RawWidthAsWritten(-1) == 0 && RawWidthAsWritten(-14) == 0
    ensures RawWidthAsWritten(-15) == 0xFFFF_FFFF
  {
    assert WrapInt32(-14 + 7) == -7 && CDiv(-7, 8) == 0;
    assert WrapInt32(-1 + 7) == 6;
    assert WrapInt32(-15 + 7) == -8 && CDiv(-8, 8) == -1;
  }

  /**
   `uint32_t image_data_size = raw_data_width * info_header.px_height;`
   evaluated as the C does: the product of two 32-bit unsigned values
   modulo 2^32.
   */
  function ImageDataSizeAsWritten(raw: nat, pxHeight: nat): (r: nat)
    requires raw < TWO_TO_32 && pxHeight <= INT32_MAX
    ensures r < TWO_TO_32
    ensures (r - raw * pxHeight) % TWO_TO_32 == 0
  {
    (raw * pxHeight) % TWO_TO_32
  }

  /**
   A 524288 x 65536 image needs 2^32 key bytes, but the 32-bit product
   wraps to 0, so the size check as written accepts an empty key.
   */
  lemma {:induction false} ImageDataSizeAsWrittenWraps()
    ensures RawWidth(0x8_0000) == 0x1_0000
    ensures RawWidth(0x8_0000) * 0x1_0000 == TWO_TO_32
    ensures ImageDataSizeAsWritten(RawWidthAsWritten(0x8_0000), 0x1_0000) == 0
  {
    assert RawWidthAsWritten(0x8_0000) == RawWidth(0x8_0000) by {
      RawWidthAsWrittenAgrees(0x8_0000);
    }
  }
}

=== FILE: rows.dfy ===
/**
 The row transformer: each stored row of pixel data is XORed, over its
 leading (unpadded) bytes, with the next chunk of the key stream; the
 padding bytes at the end of the row are left as they are.
 */
module RowTransform {

  /**
   One padded row with its leading bytes XORed with the key row: byte `j`
   is XORed with key byte `j` below the key row's length and is left as it
   is (padding) from there on.
   */
  function XorRow(row: seq<bv8>, keyRow: seq<bv8>): (r: seq<bv8>)
    requires |keyRow| <= |row|
    ensures |r| == |row|
  {
    seq(|row|, j requires 0 <= j < |row| => if j < |keyRow| then row[j] ^ keyRow[j] else row[j])
  }

  /** XORing a row twice with the same key row gives the row back. */
  lemma {:induction false} XorRowInvolutive(row: seq<bv8>, keyRow: seq<bv8>)
    requires |keyRow| <= |row|
    ensures XorRow(XorRow(row, keyRow), keyRow) == row
  {
    var once := XorRow(row, keyRow);
    var twice := XorRow(once, keyRow);
    forall j | 0 <= j < |row|
      ensures twice[j] == row[j]
    {
      if j < |keyRow| {
        assert twice[j] == (row[j] ^ keyRow[j]) ^ keyRow[j];
      }
    }
  }

  /**
   Where row `n` starts when every row is `w` bytes long: n * w, built up
   row by row so that proofs about rows need no multiplication.
   */
  function Offset(n: nat, w: nat): nat
  {
    if n == 0 then 0 else Offset(n - 1, w) + w
  }

  lemma {:induction false} OffsetIsProduct(n: nat, w: nat)
    ensures Offset(n, w) == n * w
  {
    if n > 0 {
      OffsetIsProduct(n - 1, w);
    }
  }

  /** A row that comes before row `n` ends no later than row `n` starts. */
  lemma {:induction false} OffsetMonotone(m: nat, n: nat, w: nat)
    requires m < n
    ensures Offset(m, w) + w <= Offset(n, w)
  {
    if m < n - 1 {
      OffsetMonotone(m, n - 1, w);
    }
  }

  /**
   The first `rows` stored rows of `padded` bytes each, taken from the start
   of `pixels`, every row XORed over its first `raw` bytes with the next
   `raw` bytes of `key`.
   */
  function XorRows(pixels: seq<bv8>, key: seq<bv8>, raw: nat, padded: nat, rows: nat): (r: seq<bv8>)
    requires raw <= padded
    requires Offset(rows, padded) <= |pixels| && Offset(rows, raw) <= |key|
    ensures |r| == Offset(rows, padded)
    decreases rows
  {
    if rows == 0 then []
    else
      XorRows(pixels, key, raw, padded, rows - 1) +
      XorRow(pixels[Offset(rows - 1, padded)..Offset(rows, padded)], key[Offset(rows - 1, raw)..Offset(rows, raw)])
  }

  /**
   Byte `j` of row `row` in the result is byte `j` of that row transformed
   on its own with its own key chunk.
   */
  lemma {:induction false} XorRowsRow(pixels: seq<bv8>, key: seq<bv8>, raw: nat, padded: nat, rows: nat, row: nat, j: nat)
    requires raw <= padded
    requires Offset(rows, padded) <= |pixels| && Offset(rows, raw) <= |key|
    requires row < rows && j < padded
    ensures Offset(row + 1, padded) <= Offset(rows, padded) && Offset(row + 1, raw) <= Offset(rows, raw)
    ensures XorRows(pixels, key, raw, padded, rows)[Offset(row, padded) + j] ==
      XorRow(pixels[Offset(row, padded)..Offset(row + 1, padded)], key[Offset(row, raw)..Offset(row + 1, raw)])[j]
    decreases rows
  {
    var front := XorRows(pixels, key, raw, padded, rows - 1);
    var back := XorRow(pixels[Offset(rows - 1, padded)..Offset(rows, padded)], key[Offset(rows - 1, raw)..Offset(rows, raw)]);
    assert XorRows(pixels, key, raw, padded, rows) == front + back;
    if row < rows - 1 {
      OffsetMonotone(row, rows - 1, padded);
      OffsetMonotone(row, rows - 1, raw);
      XorRowsRow(pixels, key, raw, padded, rows - 1, row, j);
      assert (front + back)[Offset(row, padded) + j] == front[Offset(row, padded) + j];
    }
  }

  /**
   Byte `j` of row `row` in the result: the input byte XORed with key byte
   `j` of the row's key chunk when `j` is below `raw`, the input byte itself
   (padding) otherwise.
   */
  lemma {:induction false} XorRowsAt(pixels: seq<bv8>, key: seq<bv8>, raw: nat, padded: nat, rows: nat, row: nat, j: nat)
    requires raw <= padded
    requires Offset(rows, padded) <= |pixels| && Offset(rows, raw) <= |key|
    requires row < rows && j < padded
    ensures Offset(row, padded) + j < Offset(rows, padded)
    ensures Offset(row, raw) + j < Offset(rows, raw) || j >= raw
    ensures XorRows(pixels, key, raw, padded, rows)[Offset(row, padded) + j] ==
      if j < raw then pixels[Offset(row, padded) + j] ^ key[Offset(row, raw) + j]
      else pixels[Offset(row, padded) + j]
  {
    XorRowsRow(pixels, key, raw, padded, rows, row, j);
    var start, keyStart := Offset(row, padded), Offset(row, raw);
    assert Offset(row + 1, padded) == start + padded && Offset(row + 1, raw) == keyStart + raw;
    var pixelRow, keyRow := pixels[start..start + padded], key[keyStart..keyStart + raw];
    assert pixelRow[j] == pixels[start + j];
    if j < raw {
      assert keyRow[j] == key[keyStart + j];
    }
  }

  /** With wider rows every row starts at least as late. */
  lemma {:induction false} OffsetWidthMonotone(n: nat, v: nat, w: nat)
    requires v <= w
    ensures Offset(n, v) <= Offset(n, w)
  {
    if n > 0 {
      OffsetWidthMonotone(n - 1, v, w);
    }
  }

  /** The first `rows` rows depend only on the bytes those rows occupy. */
  lemma {:induction false} XorRowsFrame(p: seq<bv8>, q: seq<bv8>, key: seq<bv8>, raw: nat, padded: nat, rows: nat)
    requires raw <= padded
    requires Offset(rows, padded) <= |p| && Offset(rows, padded) <= |q| && Offset(rows, raw) <= |key|
    requires p[..Offset(rows, padded)] == q[..Offset(rows, padded)]
    ensures XorRows(p, key, raw, padded, rows) == XorRows(q, key, raw, padded, rows)
    decreases rows
  {
    if rows > 0 {
      var last, end := Offset(rows - 1, padded), Offset(rows, padded);
      assert p[..last] == p[..end][..last] == q[..end][..last] == q[..last];
      assert p[last..end] == p[..end][last..] == q[..end][last..] == q[last..end];
      XorRowsFrame(p, q, key, raw, padded, rows - 1);
    }
  }

  /** The last of `rows` transformed rows, split off from the rows before it. */
  lemma {:induction false} XorRowsSplit(pixels: seq<bv8>, key: seq<bv8>, raw: nat, padded: nat, rows: nat)
    requires raw <= padded && rows > 0
    requires Offset(rows, padded) <= |pixels| && Offset(rows, raw) <= |key|
    ensures XorRows(pixels, key, raw, padded, rows)[..Offset(rows - 1, padded)] == XorRows(pixels, key, raw, padded, rows - 1)
    ensures XorRows(pixels, key, raw, padded, rows)[Offset(rows - 1, padded)..] ==
      XorRow(pixels[Offset(rows - 1, padded)..Offset(rows, padded)], key[Offset(rows - 1, raw)..Offset(rows, raw)])
  {
  }

  /** Transforming the pixel data twice with the same key gives it back. */
  lemma {:induction false} XorRowsInvolutive(pixels: seq<bv8>, key: seq<bv8>, raw: nat, padded: nat, rows: nat)
    requires raw <= padded
    requires Offset(rows, padded) <= |pixels| && Offset(rows, raw) <= |key|
    ensures XorRows(XorRows(pixels, key, raw, padded, rows), key, raw, padded, rows) == pixels[..Offset(rows, padded)]
    decreases rows
  {
    if rows > 0 {
      var last, end := Offset(rows - 1, padded), Offset(rows, padded);
      var keyRow := key[Offset(rows - 1, raw)..Offset(rows, raw)];
      var out := XorRows(pixels, key, raw, padded, rows);
      var front := XorRows(pixels, key, raw, padded, rows - 1);
      XorRowsSplit(pixels, key, raw, padded, rows);
      assert XorRows(out, key, raw, padded, rows - 1) == pixels[..last] by {
        assert out[..last] == front[..last];
        XorRowsFrame(out, front, key, raw, padded, rows - 1);
        XorRowsInvolutive(pixels, key, raw, padded, rows - 1);
      }
      assert XorRow(out[last..end], keyRow) == pixels[last..end] by {
        assert out[last..end] == out[last..];
        XorRowInvolutive(pixels[last..end], keyRow);
      }
      assert pixels[..end] == pixels[..last] + pixels[last..end];
    }
  }

  /** `padded_row[j] ^= key_block[j]` for every `j` below the key block's length. */
  method XorRowInPlace(paddedRow: array<bv8>, keyBlock: array<bv8>)
    requires keyBlock.Length <= paddedRow.Length && paddedRow != keyBlock
    modifies paddedRow
    ensures paddedRow[..] == XorRow(old(paddedRow[..]), keyBlock[..])
  {
    ghost var before := paddedRow[..];
    var j := 0;
    while j < keyBlock.Length
      invariant 0 <= j <= keyBlock.Length
      invariant forall k :: 0 <= k < j ==> paddedRow[k] == before[k] ^ keyBlock[k]
      invariant forall k :: j <= k < paddedRow.Length ==> paddedRow[k] == before[k]
    {
      paddedRow[j] := paddedRow[j] ^ keyBlock[j];
      j := j + 1;
    }
  }

  /** `fread` of `buffer.Length` bytes from a stream whose cursor is at `at`. */
  method Read(buffer: array<bv8>, stream: seq<bv8>, at: nat)
    requires at + buffer.Length <= |stream|
    modifies buffer
    ensures buffer[..] == stream[at..at + buffer.Length]
  {
    forall k | 0 <= k < buffer.Length {
      buffer[k] := stream[at + k];
    }
  }

  /**
   One pass of the row loop: read the key block and the padded row from
   their streams, XOR the row in place and hand it to the writer.
   */
  method TransformRow(keyBlock: array<bv8>, paddedRow: array<bv8>, key: seq<bv8>, keyAt: nat, pixels: seq<bv8>, pixelAt: nat)
      returns (written: seq<bv8>)
    requires keyBlock.Length <= paddedRow.Length && keyBlock != paddedRow
    requires keyAt + keyBlock.Length <= |key| && pixelAt + paddedRow.Length <= |pixels|
    modifies keyBlock, paddedRow
    ensures written == XorRow(pixels[pixelAt..pixelAt + paddedRow.Length], key[keyAt..keyAt + keyBlock.Length])
    ensures paddedRow[..] == written && keyBlock[..] == key[keyAt..keyAt + keyBlock.Length]
  {
    Read(keyBlock, key, keyAt);
    Read(paddedRow, pixels, pixelAt);
    XorRowInPlace(paddedRow, keyBlock);
    written := paddedRow[..];
  }

  /**
   The row loop: `height` counts down from the row count; each pass reads the
   next `raw` key bytes into the key block and the next `padded` pixel bytes
   into the row buffer, XORs the buffer in place and appends it to the output.
   */
  method TransformRows(pixels: seq<bv8>, key: seq<bv8>, raw: nat, padded: nat, rows: nat) returns (out: seq<bv8>)
    requires raw <= padded
    requires Offset(rows, padded) <= |pixels| && Offset(rows, raw) <= |key|
    ensures out == XorRows(pixels, key, raw, padded, rows)
  {
    var keyBlock := new bv8[raw];
    var paddedRow := new bv8[padded];
    out := [];
    var keyAt, pixelAt := 0, 0;
    var height: nat := rows;
    ghost var done: nat := 0;
    while height > 0
      invariant done + height == rows
      invariant keyAt == Offset(done, raw) && pixelAt == Offset(done, padded)
      invariant keyAt <= |key| && pixelAt <= |pixels|
      invariant out == XorRows(pixels, key, raw, padded, done)
    {
      height := height - 1;
      OffsetMonotone(done, rows, raw);
      OffsetMonotone(done, rows, padded);
      var written := TransformRow(keyBlock, paddedRow, key, keyAt, pixels, pixelAt);
      out := out + written;
      keyAt, pixelAt, done := keyAt + raw, pixelAt + padded, done + 1;
    }
  }
}
